=== FILE: README.md ===
# UserLoginProcessor in Dafny

This project models the logic of the Kafka user-login consumer in
`kafka-consumer.py`. The consumer reads login events, enriches each one with
three derived fields, and counts devices, app versions and locales in a time
window. Every ten seconds it emits an aggregate snapshot and resets the window.

The model is a state machine over
`State(deviceStats, versionStats, locationStats, processedCount, lastProcessedTime)`:

- `Processor.Observe` covers one message. It is the loop body at lines
  116-120 run over the corrected, atomic `process_message` described under
  "## Findings". It is split into `Judge`, which decides on the message
  before any counter changes, and `Tally`, which applies that verdict.
  `Processor.ObserveAsWritten` is the same loop body over the code as
  written, and the two agree whenever the counted fields are hashable.
- `Processor.Batch` is a left fold of `Observe` over one poll.
  `Processor.RunBatch` is the same thing written as nested loops, and it is
  proved equal to `Batch`.
- `Processor.Flush` is the timed block that emits the snapshot and resets the
  window.
- `Processor.Step` is one iteration of the main loop: a batch, then an
  optional flush.

The helper modules model what `process_message` relies on:

- `PyInt` is Python's `int()` on a decoded JSON value. That covers strings
  with whitespace, a sign and underscores, the 4300-digit limit, floats
  truncated toward zero, and `bool`.
- `LocalTime` is `datetime.fromtimestamp` for a zone with a fixed UTC offset.
  The conversion fails outside years 1..9999. It also covers the
  `isoformat()` rendering.
- `Json` holds decoded payloads and the identity of Python dict keys: `True`,
  `1` and `1.0` share a counter entry, and lists and dicts are unhashable.
- `Counters` models `defaultdict(int)` counters that only ever go up by one,
  as multisets of keys.

Facts about the code that the model keeps:

- A missing device type, app version or locale is not written into the
  enriched record. `'unknown'` appears only as a counter key.
- A message whose timestamp is missing or cannot be converted is dropped.
- The snapshot field `current_time` is `last_processed_time` read before the
  reset, so it holds the window start, not the flush time.
- `batch_size` is `processed_count / elapsed_time` for the current window.
- `version_stats` is counted but never emitted.

## Model

| member | source | states |
|---|---|---|
| `Json.KeyOf` | kafka-consumer.py:75-77 | A field value gives a counter key exactly when it is hashable. A list or dict value has no key. A string is keyed by its text. |
| `Json.KeyOfMatchesEquality` | kafka-consumer.py:75-77 | Two hashable values land on the same counter entry exactly when Python's `==` holds between them. For example, `True`, `1` and `1.0` share an entry. |
| `PyInt.Truncate` | kafka-consumer.py:64 | `int()` of a float is its integer part. It has the float's sign and lies within 1 of it, truncating toward zero. |
| `PyInt.IntOf` | kafka-consumer.py:64 | `int()` of a decoded value. `null`, lists and dicts fail. An integer is kept as is. A bool gives 0 or 1. A float is truncated toward zero: its integer part, at most the float and within 1 of it for a non-negative float, at least it and within 1 for a negative one. A string is read by `ParseInt`. |
| `PyInt.ParseShowRoundTrip` | kafka-consumer.py:64 | `int(str(n)) == n` for every integer whose rendering is within the digit limit. |
| `PyInt.DigitLimit` | kafka-consumer.py:64 | A plain digit string is read as its value up to 4300 digits. With more digits, the conversion fails. |
| `PyInt.ParseIgnoresSurroundingSpace` | kafka-consumer.py:64 | Whitespace around a timestamp string does not change what `int()` reads. |
| `LocalTime.CivilDate` | kafka-consumer.py:64 | Every day from 0001-01-01 on maps to a valid calendar date whose day number, by the closed-form Gregorian count `DaysFromCivil`, is that day. A day before 10000-01-01 gives a year of at most 9999. |
| `LocalTime.YearStep` | kafka-consumer.py:64 | The closed-form count of days before a year grows by exactly that year's length, 366 in a leap year and 365 otherwise. |
| `LocalTime.CycleDays` | kafka-consumer.py:64 | Every 400 Gregorian years hold exactly 146097 days. |
| `LocalTime.EpochConstants` | kafka-consumer.py:64 | 1970-01-01 is day 719162 after 0001-01-01, and 10000-01-01 is 2932897 days after the epoch, so the representable range is years 1..9999. |
| `LocalTime.YearOf` | kafka-consumer.py:64 | Walking years forward lands on a year and a day within it, and the day count is preserved. |
| `LocalTime.HourOf` | kafka-consumer.py:71 | The local hour of an epoch second is in 0..23. |
| `LocalTime.FromTimestamp` | kafka-consumer.py:64 | The conversion succeeds exactly when the local second falls in years 1..9999. A result is a valid date and time with a year of at most 9999, and its hour is `HourOf`. The local second equals the date's day number times 86400 plus the time of day. |
| `LocalTime.IsoFormat` | kafka-consumer.py:70 | The rendering has `T` nine characters from its end, with the zero-padded hour after it. Reading the text back with `ReadIso`, which checks the `-`, `T` and `:` separators at their positions and reads each digit field, gives back exactly the datetime. For years up to 9999 the text is exactly 19 characters long. |
| `LocalTime.HourFieldOfIsoFormat` | kafka-consumer.py:70-71 | Reading the hour back out of `readable_timestamp` gives the datetime's hour, so `readable_timestamp` and `hour_of_day` agree. |
| `LocalTime.FromTimestampExample` | kafka-consumer.py:64 | Second 978310861, read in UTC, converts to 2001-01-01 01:01:01. |
| `LocalTime.IsoFormatExample` | kafka-consumer.py:70 | 2001-01-01 01:01:01 renders as `2001-01-01T01:01:01`. |
| `Counters.AsDict` | kafka-consumer.py:88-89 | `dict(counter)` holds exactly the keys seen, each with its count, which is at least 1. An empty counter gives an empty dict. |
| `Processor.EmptyWindow` | kafka-consumer.py:21-25 | A fresh window is consistent. It has processed nothing and starts at the given time. |
| `Processor.EventTime` | kafka-consumer.py:64 | The event time exists exactly when the payload is an object whose `timestamp` field `int()` converts and whose value `fromtimestamp` can represent. It is then `fromtimestamp(int(timestamp))`, a valid datetime whose hour is the local hour of that timestamp. |
| `Processor.CounterKey` | kafka-consumer.py:75-77 | `message.get(name, 'unknown')` as a counter key. An absent field counts as `'unknown'`. A present field gives a key exactly when its value is hashable. |
| `Processor.Enrich` | kafka-consumer.py:67-72 | The record has the input's keys plus exactly the three enrichment keys, which overwrite same-named input keys. All other input keys keep their values. `readable_timestamp` is exactly the `isoformat()` text of the event datetime and reads back to it. `hour_of_day` is in 0..23 and agrees with `readable_timestamp`. The record is non-empty. |
| `Processor.Judge` | kafka-consumer.py:62-77 | The verdict on a message, reached before any counter changes, is Drop exactly for the rejected messages. An accepted message carries the three counter keys `message.get` yields and the enriched record, which is non-empty. |
| `Processor.Update` | kafka-consumer.py:75-79 | An accepted verdict bumps each counter once, at its own key, and returns the record. A dropped verdict changes nothing. `processed_count` and the window start are untouched. |
| `Processor.Tally` | kafka-consumer.py:116-120 | A verdict with a truthy record adds one to `processed_count` on top of the counter bumps. Consistency is preserved for the verdicts `Judge` can produce. |
| `Processor.ProcessMessageAsWritten` | kafka-consumer.py:62-82 | A message whose timestamp is missing, cannot be converted, or is out of range leaves the state unchanged and returns None. A record is returned exactly for non-rejected messages, and then the result equals the atomic version's. `processed_count` and the window start are never touched. |
| `Processor.ProcessMessage` | kafka-consumer.py:62-82 | Returns None exactly for the rejected messages listed in `Rejected`, and then nothing changes. On success each counter gains exactly one count, at the message's key. Every other count, `processed_count` and the window start are unchanged. |
| `Processor.Observe` | kafka-consumer.py:116-120 | A message is counted exactly when it is not rejected. Success adds 1 to `processed_count`. Failure changes nothing. Consistency is preserved. |
| `Processor.ObserveAsWritten` | kafka-consumer.py:116-120 | The loop body over the code as written. It drops exactly the rejected messages. An accepted message is counted exactly as `Observe` counts it. A dropped message leaves `processed_count` alone, even when a counter was already bumped. |
| `Processor.ObserveAsWrittenAgreesWhenHashable` | kafka-consumer.py:116-120 | The loop body over either version of `process_message` gives the same result whenever the counted fields are absent or hashable. |
| `Processor.EnrichedOf` | kafka-consumer.py:62-82 | Defines the record for a message from the message and the zone alone. It is None exactly for rejected messages. |
| `Processor.ObserveRecordIsEnrichedOf` | kafka-consumer.py:116-119 | The record that `Observe` returns and sends does not depend on the counters. |
| `Processor.ObserveCountsOnce` | kafka-consumer.py:75-77 | On success the device, version and locale counters each gain one count. The count goes to the field's value if present, or to `'unknown'` if absent. All other keys keep their counts, and `processed_count` goes up by one. |
| `Processor.ObserveEnriches` | kafka-consumer.py:64-72 | The sent record is the input with the three keys set. `processed_timestamp` is the wall-clock rendering. `hour_of_day` is the local hour of the event timestamp, in 0..23. `readable_timestamp` names that same hour and reads back to `fromtimestamp(int(timestamp))`. |
| `Processor.MissingFieldsStayMissing` | kafka-consumer.py:67-77 | An absent device type, app version or locale stays absent from the record. The message is counted under `'unknown'`. |
| `Processor.AsWrittenAgreesWhenHashable` | kafka-consumer.py:75-77 | The as-written and atomic versions of `process_message` agree on every message whose counted fields are absent or hashable. |
| `Processor.PartialUpdateWitness` | kafka-consumer.py:75-82 | As written, `{"timestamp": 0, "app_version": []}` is dropped after `device_stats` was bumped, so `processed_count` no longer matches it, also after the loop body. The atomic version and `Observe` leave the state alone. |
| `Processor.Fold` | kafka-consumer.py:113-120 | Over a run of verdicts, `processed_count` grows by the number of records sent, which is at most the run's length. The window start is unchanged, and consistency is preserved. |
| `Processor.FoldAppend` | kafka-consumer.py:113-120 | Folding over two runs one after the other equals folding over their concatenation, and the first run's records come first. |
| `Processor.FoldSendsRecords` | kafka-consumer.py:116-119 | The records a fold sends depend only on the verdicts, never on the counters. |
| `Processor.FoldOfDropsIsNoOp` | kafka-consumer.py:116-117 | A run of dropped verdicts changes nothing and sends nothing. |
| `Processor.Batch` | kafka-consumer.py:113-120 | Over a batch, `processed_count` grows by the number of records sent. The window start is unchanged, and consistency between the count and every counter total is preserved. |
| `Processor.BatchAppend` | kafka-consumer.py:113-120 | Processing two runs one after the other equals processing their concatenation. The first run's records are sent first. |
| `Processor.BatchSnoc` | kafka-consumer.py:113-120 | Extending a batch by one message is one more `Observe` on the batch's final state. |
| `Processor.BatchSendsOutputs` | kafka-consumer.py:113-120 | The batch sends exactly the enriched accepted messages, in input order, whatever the counters held. The count grows by that many. |
| `Processor.BatchOfRejectedIsNoOp` | kafka-consumer.py:113-120 | A batch made only of rejected messages changes nothing and sends nothing. |
| `Processor.HandleMessage` | kafka-consumer.py:116-120 | Processing one message in the loop, with the truthiness test and the send, is exactly one `Observe`. |
| `Processor.RunPartition` | kafka-consumer.py:114-120 | The loop over one partition continues the fold over its messages. |
| `Processor.RunBatch` | kafka-consumer.py:113-120 | The nested loops over partitions and messages compute the fold over the flattened poll. |
| `Processor.Flush` | kafka-consumer.py:123-138 | A snapshot is emitted exactly when the guard reading is at least 10 seconds past the window start. Otherwise nothing changes. On a flush the state becomes an empty window starting at `current_time`. The snapshot carries the pre-reset location and device counters, the window start as `current_time`, and `current_time - start` as `time_window`. For any clock readings, a positive window gives `batch_size × time_window == processed_count`, and a window of 0 or less gives `batch_size` 0. |
| `Processor.AggregateStatistics` | kafka-consumer.py:84-89 | In a consistent state, the snapshot's location and device counts each total `processed_count`. |
| `Processor.Step` | kafka-consumer.py:112-138 | One loop iteration preserves consistency. A flushing step ends in an empty window at `current_time`, and its snapshot counts all earlier messages plus this batch's sent ones. A non-flushing step only adds the sent records to the count. The sent records are exactly the enriched accepted messages of the poll, in order. The step flushes exactly when the first clock reading is at least 10 seconds past the window start, and the snapshot carries that window start and `current_time - start`. |
| `Processor.FlushRate` | kafka-consumer.py:123-127 | If the second clock reading is not earlier than the first, a flush sees at least 10 seconds elapsed. Then `batch_size * time_window == processed_count`, so the `else 0` branch is not taken. |
| `Processor.ZeroRateWhenClockStepsBack` | kafka-consumer.py:123-127 | For every state: when the flush guard fires but the second clock reading is not after the window start, the snapshot has a window of at most 0 seconds and a rate of 0, however many messages were processed. |
| `Processor.EmptyWindowIsFlushed` | kafka-consumer.py:84-89 | A window with no accepted messages is still flushed, with empty location and device dicts. |
| `Processor.WindowStartAdvances` | kafka-consumer.py:125-134 | With a clock that does not step back, a step never moves the window start backwards. A flushing step moves it forward by at least 10 seconds. |

## Left out

- Kafka consumer and producer construction, `poll`, `send`, `flush` and `close` (kafka-consumer.py:27-52, 112, 119, 132, 143, 150-151) are network I/O. A poll is given to the model as its partitions' messages in iteration order. A send is the record or snapshot that the model returns.
- JSON decoding and encoding are done by the library. Payloads arrive as decoded `Json.Value`s. NaN and infinite floats, which Python's decoder accepts and `int()` rejects, are not modelled.
- The wall clock is not modelled. `datetime.now().isoformat()` is the `processedAt` string of each delivery. The two `time.time()` readings of the flush check are the `probe` and `now` parameters. The start time is a parameter of `EmptyWindow`.
- The local time zone is a fixed UTC offset. Daylight saving time and the platform's `localtime` quirks are not modelled. Neither is the fold probe CPython makes near the earliest representable date.
- `int()` on strings: whitespace beyond Latin-1 and non-ASCII decimal digits are not modelled. The 4300-digit limit is the default of Python 3.11 and later.
- Time and rates are exact reals, not floating-point numbers.
- `print_statistics`, `print` and all logging are output only and are not modelled.
- `KeyboardInterrupt`, the fatal-error handler and the endless `while True` loop are process lifecycle. `Processor.Step` models one iteration.
- Dict insertion order is not modelled: neither the key order of records and snapshots nor which of the equal keys `1`, `1.0` and `True` an emitted counter dict shows.
- `Processor.Flush`: `elapsed_time` and `messages_per_second` persist as object attributes in the source. The model keeps them only as snapshot fields, because nothing else reads them.
- `Processor.Observe`, `Processor.Tally`, `Processor.HandleMessage`, `Processor.Batch` and `Processor.Step` run the loop over the atomic `process_message` described under "## Findings", not over the code as written. They differ from the code only on a message whose app version or locale is a list or dict. For that message the code keeps the earlier counter bumps. `Processor.ObserveAsWritten` models that loop body.

## Findings

| source | as written | input that shows it | evidently intended | confidence | as-written member | corrected member |
|---|---|---|---|---|---|---|
| kafka-consumer.py:75-82 | The three counters are bumped one after another inside the `try` block. A list or dict field value raises TypeError at its own bump, after the earlier counters were already bumped. The message is then dropped without being added to `processed_count`. | `{"timestamp": 0, "app_version": []}` | A dropped message leaves every counter unchanged, so `processed_count` equals each counter's total. | medium; not executed | `Processor.ProcessMessageAsWritten`, exhibited by `Processor.PartialUpdateWitness` | `Processor.ProcessMessage` (used by `Observe`, `Batch` and `Step`; agrees with the as-written code whenever the counted fields are hashable, `Processor.AsWrittenAgreesWhenHashable`; the loop body over the as-written code is `Processor.ObserveAsWritten`) |

=== FILE: counters.dfy ===
/** The consumer's defaultdict(int) counters. They are only ever bumped by
    one, so a counter is the multiset of keys it has seen: a key's count is
    its multiplicity, an unseen key reads as 0, and the size of the multiset
    is the sum of all counts. */
module Counters {
  import opened Json

  type Counter = multiset<Key>

  /** dict(counter): the plain dict the snapshot carries, holding only keys
      that were bumped at least once. */
  function AsDict(c: Counter): (d: map<Key, nat>)
    ensures d.Keys == set k | k in c
    ensures forall k :: k in d ==> d[k] == c[k] && d[k] >= 1
    ensures c == multiset{} <==> d == map[]
  {
    var d := map k | k in c :: c[k];
    assert c != multiset{} ==> exists k :: k in c && k in d;
    d
  }
}

=== FILE: decimal.dfy ===
/** Decimal digit strings: reading them as numbers and rendering numbers as
    them. Shared by the int() conversion and the ISO timestamp rendering. */
module Decimal {

  predicate IsDigit(c: char) {
    '0' <= c <= '9'
  }

  predicate AllDigits(d: string) {
    forall i :: 0 <= i < |d| ==> IsDigit(d[i])
  }

  function DigitValue(c: char): (n: nat)
    requires IsDigit(c)
    ensures n < 10
  {
    c as int - '0' as int
  }

  function DigitChar(n: nat): (c: char)
    requires n < 10
    ensures IsDigit(c) && DigitValue(c) == n
  {
    ('0' as int + n) as char
  }

  /** The number a digit string denotes, most significant digit first;
      leading zeros are allowed and the empty string reads as 0. */
  function Value(d: string): nat
    requires AllDigits(d)
  {
    if |d| == 0 then 0 else Value(d[..|d| - 1]) * 10 + DigitValue(d[|d| - 1])
  }

  /** The shortest decimal rendering of `n`, as Python's str(n). */
  function Render(n: nat): (d: string)
    ensures AllDigits(d) && |d| >= 1
    ensures d[0] != '0' || n == 0
  {
    if n < 10 then [DigitChar(n)] else Render(n / 10) + [DigitChar(n % 10)]
  }

  function Zeros(k: nat): (z: string)
    ensures |z| == k && AllDigits(z)
  {
    if k == 0 then [] else Zeros(k - 1) + ['0']
  }

  /** `n` rendered with leading zeros up to `width` characters, as
      Python's '%0*d' formatting does. */
  function Pad(n: nat, width: nat): (d: string)
    ensures AllDigits(d)
    ensures |d| == if |Render(n)| >= width then |Render(n)| else width
    ensures Value(d) == n
  {
    var r := Render(n);
    ValueOfRender(n);
    if |r| >= width then r
    else
      ValueIgnoresLeadingZeros(width - |r|, r);
      Zeros(width - |r|) + r
  }

  /** Reading back a rendering gives the number rendered. */
  lemma {:induction false} ValueOfRender(n: nat)
    ensures Value(Render(n)) == n
  {
    if n >= 10 {
      var d := Render(n);
      assert d[..|d| - 1] == Render(n / 10);
      ValueOfRender(n / 10);
    }
  }

  lemma {:induction false} ValueOfZeros(k: nat)
    ensures Value(Zeros(k)) == 0
  {
    if k > 0 {
      assert Zeros(k)[..k - 1] == Zeros(k - 1);
      ValueOfZeros(k - 1);
    }
  }

  /** Leading zeros do not change the value of a digit string. */
  lemma {:induction false} ValueIgnoresLeadingZeros(k: nat, d: string)
    requires AllDigits(d)
    ensures Value(Zeros(k) + d) == Value(d)
    decreases |d|
  {
    if |d| == 0 {
      assert Zeros(k) + d == Zeros(k);
      ValueOfZeros(k);
    } else {
      var e := Zeros(k) + d;
      assert e[..|e| - 1] == Zeros(k) + d[..|d| - 1];
      ValueIgnoresLeadingZeros(k, d[..|d| - 1]);
    }
  }

  /** Numbers below 100 render in at most two digits, so Pad(n, 2) is
      exactly two characters. */
  lemma TwoDigitPad(n: nat)
    requires n < 100
    ensures |Pad(n, 2)| == 2
  {
    if n >= 10 {
      assert Render(n) == Render(n / 10) + [DigitChar(n % 10)];
    }
  }

  /** A single digit padded to two places gets one leading zero. */
  lemma PadDigit(n: nat)
    requires n < 10
    ensures Pad(n, 2) == ['0', DigitChar(n)]
  {
    assert Render(n) == [DigitChar(n)];
    assert Zeros(1) == ['0'];
  }

  /** Numbers below 10000 render in at most four digits, so Pad(n, 4) is
      exactly four characters. */
  lemma FourDigitPad(n: nat)
    ensures n < 10000 ==> |Pad(n, 4)| == 4
  {
    if 10 <= n < 10000 {
      assert Render(n) == Render(n / 10) + [DigitChar(n % 10)];
      if n / 10 >= 10 {
        assert Render(n / 10) == Render(n / 100) + [DigitChar(n / 10 % 10)];
        if n / 100 >= 10 {
          assert Render(n / 100) == Render(n / 1000) + [DigitChar(n / 100 % 10)];
        }
      }
    }
  }
}

=== FILE: json.dfy ===
/** Decoded JSON documents, as Python's json module hands them to the
    consumer, and the identity such a value has as a Python dict key. */
module Json {
  import opened Maybe

  /** null, bool, int, float, str, list and dict. Floats are exact reals. */
  datatype Value =
    | Null
    | Bool(b: bool)
    | Int(i: int)
    | Float(r: real)
    | Str(s: string)
    | Array(items: seq<Value>)
    | Object(fields: map<string, Value>)

  /** A dict key. Python's bool, int and float keys that compare equal
      (True, 1 and 1.0) land on the same entry, so numbers are keyed by
      their numeric value alone. */
  datatype Key = NoneKey | NumKey(n: real) | StrKey(s: string)

  /** Lists and dicts are unhashable: using one as a dict key raises
      TypeError. */
  predicate Hashable(v: Value) {
    !v.Array? && !v.Object?
  }

  predicate IsNumber(v: Value) {
    v.Bool? || v.Int? || v.Float?
  }

  function NumberValue(v: Value): real
    requires IsNumber(v)
  {
    match v
    case Bool(b) => if b then 1.0 else 0.0
    case Int(i) => i as real
    case Float(r) => r
  }

  /** Python's == between two hashable values. */
  predicate PyEquals(a: Value, b: Value)
    requires Hashable(a) && Hashable(b)
  {
    if IsNumber(a) && IsNumber(b) then NumberValue(a) == NumberValue(b)
    else if a.Str? && b.Str? then a.s == b.s
    else a.Null? && b.Null?
  }

  /** The dict entry a value selects, or None when the value is unhashable. */
  function KeyOf(v: Value): (k: Option<Key>)
    ensures k.Some? <==> Hashable(v)
    ensures v.Str? ==> k == Some(StrKey(v.s))
  {
    match v
    case Null => Some(NoneKey)
    case Bool(b) => Some(NumKey(if b then 1.0 else 0.0))
    case Int(i) => Some(NumKey(i as real))
    case Float(r) => Some(NumKey(r))
    case Str(s) => Some(StrKey(s))
    case Array(_) => None
    case Object(_) => None
  }

  /** Two hashable values share a dict entry exactly when Python calls them
      equal. */
  lemma KeyOfMatchesEquality(a: Value, b: Value)
    requires Hashable(a) && Hashable(b)
    ensures KeyOf(a) == KeyOf(b) <==> PyEquals(a, b)
  {
  }
}

=== FILE: localtime.dfy ===
/** datetime.fromtimestamp(ts) and datetime.isoformat() for a local zone
    with a fixed UTC offset: the conversion that yields the record's
    readable_timestamp and hour_of_day. */
module LocalTime {
  import opened Maybe
  import Decimal

  const SecondsPerDay := 86400
  const SecondsPerHour := 3600
  const DaysPer400Years := 146097
  /** Days from 0001-01-01 to 1970-01-01 in the proleptic Gregorian calendar. */
  const DaysBeforeEpoch := 719162
  /** Days from 1970-01-01 to 10000-01-01. */
  const DaysToYear10000 := 2932897
  /** 0001-01-01T00:00:00 and 9999-12-31T23:59:59 as local seconds since
      1970-01-01T00:00:00: the range of datetime.MINYEAR..MAXYEAR. */
  const MinLocalSecond := -DaysBeforeEpoch * SecondsPerDay
  const MaxLocalSecond := DaysToYear10000 * SecondsPerDay - 1

  /** The machine's local zone, reduced to a fixed offset from UTC in seconds. */
  datatype Zone = Zone(utcOffset: int)

  /** A naive local datetime with whole seconds. */
  datatype DateTime = DateTime(year: int, month: int, day: int, hour: int, minute: int, second: int)

  predicate IsLeap(y: int) {
    y % 4 == 0 && (y % 100 != 0 || y % 400 == 0)
  }

  function DaysInYear(y: int): int {
    if IsLeap(y) then 366 else 365
  }

  function DaysInMonth(y: int, m: int): int
    requires 1 <= m <= 12
  {
    if m == 2 then (if IsLeap(y) then 29 else 28)
    else if m == 4 || m == 6 || m == 9 || m == 11 then 30
    else 31
  }

  /** Days in year `y` before the first of month `m`. */
  function DaysBeforeMonth(y: int, m: int): int
    requires 1 <= m <= 12
  {
    [0, 31, 59, 90, 120, 151, 181, 212, 243, 273, 304, 334][m - 1]
      + (if IsLeap(y) && m > 2 then 1 else 0)
  }

  /** The cumulative table agrees with the month lengths: month `m` spans
      DaysInMonth(y, m) days, and December ends the year. */
  lemma MonthSpans(y: int, m: int)
    requires 1 <= m <= 12
    ensures m < 12 ==> DaysBeforeMonth(y, m + 1) == DaysBeforeMonth(y, m) + DaysInMonth(y, m)
    ensures m == 12 ==> DaysInYear(y) == DaysBeforeMonth(y, m) + DaysInMonth(y, m)
  {
  }

  predicate Valid(dt: DateTime) {
    && 1 <= dt.year
    && 1 <= dt.month <= 12
    && 1 <= dt.day <= DaysInMonth(dt.year, dt.month)
    && 0 <= dt.hour < 24
    && 0 <= dt.minute < 60
    && 0 <= dt.second < 60
  }

  /** The local second falls in a year datetime can represent. */
  predicate Representable(zone: Zone, ts: int) {
    MinLocalSecond <= ts + zone.utcOffset <= MaxLocalSecond
  }

  /** Days from 0001-01-01 to the first of January of year `y` in the
      proleptic Gregorian calendar: 365 a year plus the leap days before it. */
  function DaysBeforeYear(y: int): int {
    var x := y - 1;
    365 * x + x / 4 - x / 100 + x / 400
  }

  /** Days from 1970-01-01 to the date y-m-d; negative before the epoch. */
  function DaysFromCivil(y: int, m: int, d: int): int
    requires 1 <= m <= 12
  {
    DaysBeforeYear(y) + DaysBeforeMonth(y, m) + d - 1 - DaysBeforeEpoch
  }

  /** Stepping past a multiple of one of the leap-year divisors adds one
      to the quotient. */
  lemma DivStep(x: int, k: int)
    requires k == 4 || k == 100 || k == 400
    ensures (x + 1) / k == x / k + (if (x + 1) % k == 0 then 1 else 0)
  {
  }

  lemma MultipleMod(m: int)
    ensures (100 * m) % 100 == 0 && (4 * m) % 4 == 0
  {
  }

  /** Divisible by 400 implies by 100, and by 100 implies by 4. */
  lemma DivisibleChain(y: int)
    ensures y % 400 == 0 ==> y % 100 == 0
    ensures y % 100 == 0 ==> y % 4 == 0
  {
    if y % 400 == 0 {
      var k := y / 400;
      assert y == 100 * (4 * k);
      MultipleMod(4 * k);
    }
    if y % 100 == 0 {
      var k := y / 100;
      assert y == 4 * (25 * k);
      MultipleMod(25 * k);
    }
  }

  /** Year `y` spans DaysInYear(y) days of the closed form. */
  lemma YearStep(y: int)
    ensures DaysBeforeYear(y + 1) == DaysBeforeYear(y) + DaysInYear(y)
  {
    var x := y - 1;
    DivStep(x, 4);
    DivStep(x, 100);
    DivStep(x, 400);
    DivisibleChain(y);
    var d4 := if y % 4 == 0 then 1 else 0;
    var d100 := if y % 100 == 0 then 1 else 0;
    var d400 := if y % 400 == 0 then 1 else 0;
    assert DaysBeforeYear(y + 1) == DaysBeforeYear(y) + 365 + d4 - d100 + d400;
    assert d4 - d100 + d400 == if IsLeap(y) then 1 else 0;
  }

  /** Every 400 years hold exactly DaysPer400Years days. */
  lemma CycleDays(q: int)
    ensures DaysBeforeYear(1 + 400 * q) == DaysPer400Years * q
  {
    assert (400 * q) / 4 == 100 * q;
    assert (400 * q) / 100 == 4 * q;
    assert (400 * q) / 400 == q;
  }

  /** The epoch and the end of year 9999 are where the constants put them. */
  lemma EpochConstants()
    ensures DaysBeforeYear(1970) == DaysBeforeEpoch
    ensures DaysBeforeYear(10000) == DaysBeforeEpoch + DaysToYear10000
  {
  }

  lemma {:induction false} DaysBeforeYearMonotone(a: int, b: int)
    requires a <= b
    ensures DaysBeforeYear(a) <= DaysBeforeYear(b)
    decreases b - a
  {
    if a < b {
      YearStep(a);
      DaysBeforeYearMonotone(a + 1, b);
    }
  }

  /** A year whose first day comes before 10000-01-01 is at most 9999. */
  lemma YearBelow10000(y: int)
    requires DaysBeforeYear(y) < DaysBeforeYear(10000)
    ensures y <= 9999
  {
    if y >= 10000 {
      DaysBeforeYearMonotone(10000, y);
    }
  }

  /** Walks years forward from `y` until day `n` falls inside one: the
      year and the zero-based day within it. */
  function YearOf(n: nat, y: int): (r: (int, nat))
    ensures y <= r.0 && r.1 < DaysInYear(r.0)
    ensures DaysBeforeYear(r.0) + r.1 == DaysBeforeYear(y) + n
    decreases n
  {
    if n < DaysInYear(y) then (y, n)
    else
      YearStep(y);
      YearOf(n - DaysInYear(y), y + 1)
  }

  /** The month of year `y` holding zero-based day `doy`, searching down
      from month `m`. */
  function MonthOf(y: int, doy: nat, m: int): (r: int)
    requires 1 <= m <= 12
    ensures 1 <= r <= m && DaysBeforeMonth(y, r) <= doy
    ensures r < m ==> doy < DaysBeforeMonth(y, r + 1)
    decreases m
  {
    if m == 1 || DaysBeforeMonth(y, m) <= doy then m else MonthOf(y, doy, m - 1)
  }

  /** The year holding day `n` counted from 0001-01-01, and the zero-based
      day within it: whole 400-year cycles first, then single years. */
  function YearAndDay(n: nat): (r: (int, nat))
    ensures 1 <= r.0 && r.1 < DaysInYear(r.0)
    ensures DaysBeforeYear(r.0) + r.1 == n
  {
    CycleDays(n / DaysPer400Years);
    YearOf(n % DaysPer400Years, 1 + 400 * (n / DaysPer400Years))
  }

  /** The calendar date `days` days after 1970-01-01. It is the date whose
      day number is `days`, and it lies before year 10000 when `days`
      does. */
  function CivilDate(days: int): (r: (int, int, int))
    requires days >= -DaysBeforeEpoch
    ensures 1 <= r.0 && 1 <= r.1 <= 12 && 1 <= r.2 <= DaysInMonth(r.0, r.1)
    ensures DaysFromCivil(r.0, r.1, r.2) == days
    ensures days < DaysToYear10000 ==> r.0 <= 9999
  {
    var (y, doy) := YearAndDay(days + DaysBeforeEpoch);
    var m := MonthOf(y, doy, 12);
    MonthSpans(y, m);
    EpochConstants();
    if days < DaysToYear10000 then
      YearBelow10000(y);
      (y, m, doy - DaysBeforeMonth(y, m) + 1)
    else
      (y, m, doy - DaysBeforeMonth(y, m) + 1)
  }

  /** The hour of day of epoch second `ts` on a clock `zone.utcOffset`
      seconds ahead of UTC. */
  function HourOf(zone: Zone, ts: int): (h: int)
    ensures 0 <= h < 24
  {
    (ts + zone.utcOffset) % SecondsPerDay / SecondsPerHour
  }

  /** Splitting a local second into whole days and hour, minute and
      second of the day. */
  lemma SplitSecondOfDay(local: int)
    ensures var rest := local % SecondsPerDay;
      && var h := rest / SecondsPerHour;
      && var m := rest % SecondsPerHour / 60;
      && var sec := rest % SecondsPerHour % 60;
      && 0 <= h < 24 && 0 <= m < 60 && 0 <= sec < 60
      && local == SecondsPerDay * (local / SecondsPerDay) + 3600 * h + 60 * m + sec
  {
    var rest := local % SecondsPerDay;
    var r2 := rest % SecondsPerHour;
    assert rest == SecondsPerHour * (rest / SecondsPerHour) + r2;
    assert r2 == 60 * (r2 / 60) + r2 % 60;
    assert local == SecondsPerDay * (local / SecondsPerDay) + rest;
  }

  /** datetime.fromtimestamp(ts): None where Python raises ValueError for
      a year outside 1..9999. A result names exactly the local second:
      its date's day number times a day, plus its time of day. */
  function FromTimestamp(zone: Zone, ts: int): (r: Option<DateTime>)
    ensures r.Some? <==> Representable(zone, ts)
    ensures r.Some? ==> Valid(r.value) && r.value.year <= 9999
    ensures r.Some? ==> r.value.hour == HourOf(zone, ts)
    ensures r.Some? ==>
      ts + zone.utcOffset
        == SecondsPerDay * DaysFromCivil(r.value.year, r.value.month, r.value.day)
           + 3600 * r.value.hour + 60 * r.value.minute + r.value.second
  {
    if !Representable(zone, ts) then None
    else
      var local := ts + zone.utcOffset;
      var rest := local % SecondsPerDay;
      SplitSecondOfDay(local);
      var (y, m, d) := CivilDate(local / SecondsPerDay);
      Some(DateTime(y, m, d, rest / SecondsPerHour, rest % SecondsPerHour / 60, rest % SecondsPerHour % 60))
  }

  /** datetime.isoformat() for a whole-second naive datetime:
      YYYY-MM-DDTHH:MM:SS. Reading the fields back gives the datetime. */
  function IsoFormat(dt: DateTime): (text: string)
    requires Valid(dt)
    ensures |text| >= 19 && text[|text| - 9] == 'T'
    ensures text[|text| - 8..|text| - 6] == Decimal.Pad(dt.hour, 2)
    ensures ReadIso(text) == Some(dt)
    ensures dt.year <= 9999 ==> |text| == 19
  {
    Decimal.FourDigitPad(dt.year);
    Decimal.TwoDigitPad(dt.hour);
    Decimal.TwoDigitPad(dt.minute);
    Decimal.TwoDigitPad(dt.second);
    Decimal.TwoDigitPad(dt.month);
    Decimal.TwoDigitPad(dt.day);
    var year := Decimal.Pad(dt.year, 4);
    var mo, d := Decimal.Pad(dt.month, 2), Decimal.Pad(dt.day, 2);
    var h, mi, s := Decimal.Pad(dt.hour, 2), Decimal.Pad(dt.minute, 2), Decimal.Pad(dt.second, 2);
    ReadIsoText(year, mo, d, h, mi, s);
    IsoText(year, mo, d, h, mi, s)
  }

  /** Six digit fields joined with the ISO separators; every field but the
      year is two characters. */
  function IsoText(year: string, mo: string, d: string, h: string, mi: string, s: string): (text: string)
    requires |year| >= 4 && |mo| == 2 && |d| == 2 && |h| == 2 && |mi| == 2 && |s| == 2
    ensures |text| == |year| + 15
  {
    year + ['-', mo[0], mo[1], '-', d[0], d[1], 'T', h[0], h[1], ':', mi[0], mi[1], ':', s[0], s[1]]
  }

  /** Each field and separator of an ISO text sits at its fixed distance
      from the end. */
  lemma IsoTextFields(year: string, mo: string, d: string, h: string, mi: string, s: string)
    requires |year| >= 4 && |mo| == 2 && |d| == 2 && |h| == 2 && |mi| == 2 && |s| == 2
    ensures var text := IsoText(year, mo, d, h, mi, s);
      && var n := |text|;
      && text[n - 15] == '-' && text[n - 12] == '-' && text[n - 9] == 'T'
      && text[n - 6] == ':' && text[n - 3] == ':'
      && text[..n - 15] == year && text[n - 14..n - 12] == mo && text[n - 11..n - 9] == d
      && text[n - 8..n - 6] == h && text[n - 5..n - 3] == mi && text[n - 2..] == s
  {
    var rest := ['-', mo[0], mo[1], '-', d[0], d[1], 'T', h[0], h[1], ':', mi[0], mi[1], ':', s[0], s[1]];
    var text := IsoText(year, mo, d, h, mi, s);
    var n := |text|;
    assert text == year + rest;
    assert text[..n - 15] == year;
    PairSlice(text, n - 14, mo);
    PairSlice(text, n - 11, d);
    PairSlice(text, n - 8, h);
    PairSlice(text, n - 5, mi);
    PairSlice(text, n - 2, s);
    assert text[n - 2..] == text[n - 2..n];
  }

  /** Two adjacent characters of `t` that match `x` form the slice `x`. */
  lemma PairSlice(t: string, i: int, x: string)
    requires 0 <= i && i + 2 <= |t| && |x| == 2
    requires t[i] == x[0] && t[i + 1] == x[1]
    ensures t[i..i + 2] == x
  {
  }

  /** Reading an ISO text back gives the values of its fields. */
  lemma ReadIsoText(year: string, mo: string, d: string, h: string, mi: string, s: string)
    requires |year| >= 4 && |mo| == 2 && |d| == 2 && |h| == 2 && |mi| == 2 && |s| == 2
    requires Decimal.AllDigits(year) && Decimal.AllDigits(mo) && Decimal.AllDigits(d)
    requires Decimal.AllDigits(h) && Decimal.AllDigits(mi) && Decimal.AllDigits(s)
    ensures var text := IsoText(year, mo, d, h, mi, s);
      && text[|text| - 9] == 'T' && text[|text| - 8..|text| - 6] == h
      && ReadIso(text) == Some(DateTime(Decimal.Value(year), Decimal.Value(mo), Decimal.Value(d),
                                        Decimal.Value(h), Decimal.Value(mi), Decimal.Value(s)))
  {
    IsoTextFields(year, mo, d, h, mi, s);
  }

  /** Reads a YYYY-MM-DDTHH:MM:SS text back into its fields, counting the
      positions from the end so that the year may take more than four
      digits. None when a separator is misplaced or a field is not digits. */
  function ReadIso(text: string): Option<DateTime> {
    var n := |text|;
    if n < 19 then None
    else if text[n - 15] != '-' || text[n - 12] != '-' || text[n - 9] != 'T'
         || text[n - 6] != ':' || text[n - 3] != ':' then None
    else
      var y, mo, d := text[..n - 15], text[n - 14..n - 12], text[n - 11..n - 9];
      var h, mi, s := text[n - 8..n - 6], text[n - 5..n - 3], text[n - 2..];
      if Decimal.AllDigits(y) && Decimal.AllDigits(mo) && Decimal.AllDigits(d)
         && Decimal.AllDigits(h) && Decimal.AllDigits(mi) && Decimal.AllDigits(s)
      then Some(DateTime(Decimal.Value(y), Decimal.Value(mo), Decimal.Value(d),
                         Decimal.Value(h), Decimal.Value(mi), Decimal.Value(s)))
      else None
  }

  /** The hour an ISO text names: the two digits after its 'T'. */
  function HourField(text: string): Option<nat> {
    if |text| >= 9 && text[|text| - 9] == 'T' && Decimal.AllDigits(text[|text| - 8..|text| - 6])
    then Some(Decimal.Value(text[|text| - 8..|text| - 6]))
    else None
  }

  /** The readable text and the hour field agree: reading the hour back
      out of the ISO rendering gives the datetime's hour. */
  lemma HourFieldOfIsoFormat(dt: DateTime)
    requires Valid(dt)
    ensures HourField(IsoFormat(dt)) == Some(dt.hour)
  {
  }

  /** A worked instance: 978310861 seconds after the epoch, read in UTC,
      is one hour, one minute and one second into 2001. */
  lemma FromTimestampExample()
    ensures FromTimestamp(Zone(0), 978310861) == Some(DateTime(2001, 1, 1, 1, 1, 1))
  {
    assert 978310861 / SecondsPerDay == 11323 && 978310861 % SecondsPerDay == 3661;
    assert (11323 + DaysBeforeEpoch) % DaysPer400Years == 0;
    assert (11323 + DaysBeforeEpoch) / DaysPer400Years == 5;
    assert YearOf(0, 2001) == (2001, 0);
    FirstDayIsJanuary(2001, 12);
    assert CivilDate(11323) == (2001, 1, 1);
  }

  /** Day 0 of a year falls in January, whichever month the search starts from. */
  lemma {:induction false} FirstDayIsJanuary(y: int, m: int)
    requires 1 <= m <= 12
    ensures MonthOf(y, 0, m) == 1
    decreases m
  {
    if m > 1 {
      assert DaysBeforeMonth(y, m) > 0;
      FirstDayIsJanuary(y, m - 1);
    }
  }

  /** The same instance rendered by isoformat(). */
  lemma IsoFormatExample()
    ensures IsoFormat(DateTime(2001, 1, 1, 1, 1, 1)) == "2001-01-01T01:01:01"
  {
    PadExamples();
    assert IsoFormat(DateTime(2001, 1, 1, 1, 1, 1)) == IsoText("2001", "01", "01", "01", "01", "01");
    IsoTextExample();
  }

  lemma PadExamples()
    ensures Decimal.Pad(1, 2) == "01" && Decimal.Pad(2001, 4) == "2001"
  {
    Decimal.PadDigit(1);
    assert Decimal.Render(2) == "2";
    assert Decimal.Render(20) == Decimal.Render(2) + "0";
    assert Decimal.Render(200) == Decimal.Render(20) + "0";
    assert Decimal.Render(2001) == Decimal.Render(200) + "1";
  }

  lemma IsoTextExample()
    ensures IsoText("2001", "01", "01", "01", "01", "01") == "2001-01-01T01:01:01"
  {
  }
}

=== FILE: maybe.dfy ===
/** The optional value the model uses wherever Python returns None or an
    exception is caught and turned into None. */
module Maybe {

  datatype Option<+T> = None | Some(value: T)

}

=== FILE: processor.dfy ===
/** UserLoginProcessor: per-message enrichment, the windowed counters it
    feeds, the batch loop over one poll, and the timed flush that emits an
    aggregate snapshot and resets the window. */
module Processor {
  import opened Maybe
  import opened Json
  import opened Counters
  import PyInt
  import LocalTime

  /** An enriched record, as sent to the processed-logins topic. */
  type Record = map<string, Value>

  const TimestampField := "timestamp"
  const DeviceField := "device_type"
  const VersionField := "app_version"
  const LocaleField := "locale"
  const ProcessedKey := "processed_timestamp"
  const ReadableKey := "readable_timestamp"
  const HourKey := "hour_of_day"
  /** The key counted when a message lacks the counted field. */
  const Unknown := "unknown"
  /** Seconds between two snapshots. */
  const FlushInterval: real := 10.0

  /** The three keys the enrichment sets differ from each other and from
      the counted fields: their first letters already differ. */
  lemma FieldNamesDistinct()
    ensures ProcessedKey != ReadableKey && ProcessedKey != HourKey && ReadableKey != HourKey
    ensures DeviceField != ProcessedKey && DeviceField != ReadableKey && DeviceField != HourKey
    ensures VersionField != ProcessedKey && VersionField != ReadableKey && VersionField != HourKey
    ensures LocaleField != ProcessedKey && LocaleField != ReadableKey && LocaleField != HourKey
  {
    assert ProcessedKey[0] == 'p' && ReadableKey[0] == 'r' && HourKey[0] == 'h';
    assert DeviceField[0] == 'd' && VersionField[0] == 'a' && LocaleField[0] == 'l';
  }

  /** The processor's analytics state. Clock readings are exact reals. */
  datatype State = State(
    deviceStats: Counter,
    versionStats: Counter,
    locationStats: Counter,
    processedCount: nat,
    lastProcessedTime: real)

  /** One message as the poll hands it over, together with the wall-clock
      rendering datetime.now().isoformat() yields while it is processed. */
  datatype Delivery = Delivery(value: Value, processedAt: string)

  datatype Processed = Processed(state: State, enriched: Option<Record>)

  datatype BatchResult = BatchResult(state: State, sent: seq<Record>)

  /** The message aggregate_statistics builds. It has no version counts. */
  datatype Snapshot = Snapshot(
    currentTime: real,
    timeWindow: real,
    batchSize: real,
    locationStats: Counter,
    deviceStats: Counter)

  datatype FlushResult = FlushResult(state: State, snapshot: Option<Snapshot>)

  datatype StepResult = StepResult(state: State, sent: seq<Record>, snapshot: Option<Snapshot>)

  /** Every counter has counted exactly the messages processed_count has. */
  predicate Consistent(s: State) {
    && |s.deviceStats| == s.processedCount
    && |s.versionStats| == s.processedCount
    && |s.locationStats| == s.processedCount
  }

  /** A window that starts at `start` and has seen nothing: the state the
      constructor sets up and the state a flush leaves. */
  function EmptyWindow(start: real): (s: State)
    ensures Consistent(s) && s.processedCount == 0
    ensures s.lastProcessedTime == start
  {
    State(multiset{}, multiset{}, multiset{}, 0, start)
  }

  /** int(message['timestamp']) followed by datetime.fromtimestamp. */
  function EventTime(msg: Value, zone: LocalTime.Zone): (r: Option<LocalTime.DateTime>)
    ensures r.Some? <==>
      && msg.Object? && TimestampField in msg.fields
      && PyInt.IntOf(msg.fields[TimestampField]).Some?
      && LocalTime.Representable(zone, PyInt.IntOf(msg.fields[TimestampField]).value)
    ensures r.Some? ==> LocalTime.Valid(r.value)
    ensures r.Some? ==> r == LocalTime.FromTimestamp(zone, PyInt.IntOf(msg.fields[TimestampField]).value)
    ensures r.Some? ==> r.value.hour == LocalTime.HourOf(zone, PyInt.IntOf(msg.fields[TimestampField]).value)
  {
    if !msg.Object? || TimestampField !in msg.fields then None
    else match PyInt.IntOf(msg.fields[TimestampField])
      case None => None
      case Some(ts) => LocalTime.FromTimestamp(zone, ts)
  }

  /** message.get(name, 'unknown') used as a counter key; None when the
      value is a list or dict, which raises TypeError as a dict key. */
  function CounterKey(fields: map<string, Value>, name: string): (k: Option<Key>)
    ensures name !in fields ==> k == Some(StrKey(Unknown))
    ensures name in fields ==> (k.Some? <==> Hashable(fields[name]))
  {
    if name in fields then KeyOf(fields[name]) else Some(StrKey(Unknown))
  }

  /** Setting three distinct keys of a map adds exactly those keys and
      leaves every other entry alone. */
  lemma SetThree(m: Record, a: string, va: Value, b: string, vb: Value, c: string, vc: Value)
    requires a != b && a != c && b != c
    ensures var r := m[a := va][b := vb][c := vc];
      && r.Keys == m.Keys + {a, b, c}
      && (forall k :: k in m && k != a && k != b && k != c ==> r[k] == m[k])
      && r[a] == va && r[b] == vb && r[c] == vc
      && |r| > 0
  {
    var r := m[a := va][b := vb][c := vc];
    assert c in r.Keys;
  }

  /** {**message, 'processed_timestamp': ..., 'readable_timestamp': ...,
      'hour_of_day': ...}. */
  function Enrich(fields: map<string, Value>, dt: LocalTime.DateTime, processedAt: string): (r: Record)
    requires LocalTime.Valid(dt)
    ensures r.Keys == fields.Keys + {ProcessedKey, ReadableKey, HourKey}
    ensures forall k :: k in fields && k != ProcessedKey && k != ReadableKey && k != HourKey ==> r[k] == fields[k]
    ensures r[ProcessedKey] == Str(processedAt)
    ensures r[ReadableKey] == Str(LocalTime.IsoFormat(dt))
    ensures r[ReadableKey].Str? && LocalTime.HourField(r[ReadableKey].s) == Some(dt.hour)
    ensures r[ReadableKey].Str? && LocalTime.ReadIso(r[ReadableKey].s) == Some(dt)
    ensures r[HourKey] == Int(dt.hour) && 0 <= dt.hour < 24
    ensures |r| > 0
  {
    var text := LocalTime.IsoFormat(dt);
    LocalTime.HourFieldOfIsoFormat(dt);
    FieldNamesDistinct();
    SetThree(fields, ProcessedKey, Str(processedAt), ReadableKey, Str(text), HourKey, Int(dt.hour));
    fields[ProcessedKey := Str(processedAt)][ReadableKey := Str(text)][HourKey := Int(dt.hour)]
  }

  /** A key the message lacks and the enrichment does not set stays absent. */
  lemma EnrichOmits(fields: map<string, Value>, dt: LocalTime.DateTime, processedAt: string, name: string)
    requires LocalTime.Valid(dt)
    requires name !in fields && name != ProcessedKey && name != ReadableKey && name != HourKey
    ensures name !in Enrich(fields, dt, processedAt)
  {
    var r := Enrich(fields, dt, processedAt);
    assert name !in fields.Keys + {ProcessedKey, ReadableKey, HourKey};
  }

  /** Each way process_message ends in its except branch: TypeError for a
      payload that is not an object, KeyError for a missing timestamp,
      TypeError or ValueError from int(), ValueError from fromtimestamp for
      a year outside 1..9999, and TypeError for a list or dict used as a
      counter key. */
  predicate Rejected(msg: Value, zone: LocalTime.Zone) {
    || !msg.Object?
    || TimestampField !in msg.fields
    || PyInt.IntOf(msg.fields[TimestampField]).None?
    || !LocalTime.Representable(zone, PyInt.IntOf(msg.fields[TimestampField]).value)
    || (DeviceField in msg.fields && !Hashable(msg.fields[DeviceField]))
    || (VersionField in msg.fields && !Hashable(msg.fields[VersionField]))
    || (LocaleField in msg.fields && !Hashable(msg.fields[LocaleField]))
  }

  /** What process_message decides about a message before any counter
      changes: drop it, or count it under three keys and return its
      enriched record. */
  datatype Verdict = Drop | Accept(deviceKey: Key, versionKey: Key, localeKey: Key, record: Record)

  /** The verdicts process_message can reach carry a truthy record. */
  predicate Sound(v: Verdict) {
    v.Accept? ==> Truthy(v.record)
  }

  /** Python truthiness of the enriched dict: a dict is true when it is
      non-empty. */
  predicate Truthy(r: Record) {
    |r| > 0
  }

  /** Lines 62-77 up to the counter updates: convert the timestamp, build
      the record, pick the three counter keys. */
  function Judge(d: Delivery, zone: LocalTime.Zone): (v: Verdict)
    ensures v.Drop? <==> Rejected(d.value, zone)
    ensures Sound(v)
    ensures v.Accept? ==>
      && d.value.Object?
      && EventTime(d.value, zone).Some?
      && Some(v.deviceKey) == CounterKey(d.value.fields, DeviceField)
      && Some(v.versionKey) == CounterKey(d.value.fields, VersionField)
      && Some(v.localeKey) == CounterKey(d.value.fields, LocaleField)
      && v.record == Enrich(d.value.fields, EventTime(d.value, zone).value, d.processedAt)
  {
    match EventTime(d.value, zone)
    case None => Drop
    case Some(dt) =>
      var f := d.value.fields;
      var dk, vk, lk := CounterKey(f, DeviceField), CounterKey(f, VersionField), CounterKey(f, LocaleField);
      if dk.None? || vk.None? || lk.None? then Drop
      else Accept(dk.value, vk.value, lk.value, Enrich(f, dt, d.processedAt))
  }

  /** `after` is `before` with one more count at `key`. */
  predicate BumpedOnce(before: Counter, after: Counter, key: Key) {
    after == before + multiset{key}
  }

  /** Lines 75-79: the three counter updates and the returned record. */
  function Update(s: State, v: Verdict): (r: Processed)
    ensures v.Drop? ==> r == Processed(s, None)
    ensures v.Accept? ==>
      && r.enriched == Some(v.record)
      && BumpedOnce(s.deviceStats, r.state.deviceStats, v.deviceKey)
      && BumpedOnce(s.versionStats, r.state.versionStats, v.versionKey)
      && BumpedOnce(s.locationStats, r.state.locationStats, v.localeKey)
    ensures r.state.processedCount == s.processedCount
    ensures r.state.lastProcessedTime == s.lastProcessedTime
  {
    match v
    case Drop => Processed(s, None)
    case Accept(dk, vk, lk, record) =>
      Processed(s.(deviceStats := s.deviceStats + multiset{dk},
                   versionStats := s.versionStats + multiset{vk},
                   locationStats := s.locationStats + multiset{lk}),
                Some(record))
  }

  /** process_message as written: the three counter updates run one after
      another inside the try block, so a TypeError from the second or third
      key leaves the earlier counters bumped. */
  function ProcessMessageAsWritten(s: State, d: Delivery, zone: LocalTime.Zone): (r: Processed)
    ensures EventTime(d.value, zone).None? ==> r == Processed(s, None)
    ensures r.enriched.Some? <==> !Rejected(d.value, zone)
    ensures r.enriched.Some? ==> r == ProcessMessage(s, d, zone)
    ensures r.state.processedCount == s.processedCount
    ensures r.state.lastProcessedTime == s.lastProcessedTime
  {
    match EventTime(d.value, zone)
    case None => Processed(s, None)
    case Some(dt) =>
      var f := d.value.fields;
      var record := Enrich(f, dt, d.processedAt);
      JudgeSteps(d, zone);
      match CounterKey(f, DeviceField)
      case None => Processed(s, None)
      case Some(dk) =>
        var s1 := s.(deviceStats := s.deviceStats + multiset{dk});
        match CounterKey(f, VersionField)
        case None => Processed(s1, None)
        case Some(vk) =>
          var s2 := s1.(versionStats := s1.versionStats + multiset{vk});
          match CounterKey(f, LocaleField)
          case None => Processed(s2, None)
          case Some(lk) =>
            Processed(s2.(locationStats := s2.locationStats + multiset{lk}), Some(record))
  }

  /** The verdict on a message with a usable timestamp, in terms of its
      three counter keys. */
  lemma JudgeSteps(d: Delivery, zone: LocalTime.Zone)
    requires EventTime(d.value, zone).Some?
    ensures var f := d.value.fields;
      && var dk, vk, lk := CounterKey(f, DeviceField), CounterKey(f, VersionField), CounterKey(f, LocaleField);
      && (Rejected(d.value, zone) <==> dk.None? || vk.None? || lk.None?)
      && (dk.Some? && vk.Some? && lk.Some? ==>
            Judge(d, zone) == Accept(dk.value, vk.value, lk.value,
                                     Enrich(f, EventTime(d.value, zone).value, d.processedAt)))
  {
  }

  /** process_message with the counter keys checked before any counter
      changes, so a rejected message leaves the state untouched. */
  function ProcessMessage(s: State, d: Delivery, zone: LocalTime.Zone): (r: Processed)
    ensures r.enriched.None? <==> Rejected(d.value, zone)
    ensures r.enriched.None? ==> r.state == s
    ensures r.enriched.Some? ==>
      && d.value.Object?
      && var f := d.value.fields;
      && BumpedOnce(s.deviceStats, r.state.deviceStats, CounterKey(f, DeviceField).value)
      && BumpedOnce(s.versionStats, r.state.versionStats, CounterKey(f, VersionField).value)
      && BumpedOnce(s.locationStats, r.state.locationStats, CounterKey(f, LocaleField).value)
      && r.state.processedCount == s.processedCount
      && r.state.lastProcessedTime == s.lastProcessedTime
  {
    Update(s, Judge(d, zone))
  }

  /** Lines 116-120 for a verdict: the counter updates, then the
      processed_count bump taken when the record is truthy. */
  function Tally(s: State, v: Verdict): (r: Processed)
    ensures v.Drop? ==> r == Processed(s, None)
    ensures v.Accept? ==> r.enriched == Some(v.record)
    ensures v.Accept? && Truthy(v.record) ==> r.state.processedCount == s.processedCount + 1
    ensures r.state.lastProcessedTime == s.lastProcessedTime
    ensures Consistent(s) && Sound(v) ==> Consistent(r.state)
  {
    var p := Update(s, v);
    if p.enriched.Some? && Truthy(p.enriched.value) then
      Processed(p.state.(processedCount := p.state.processedCount + 1), p.enriched)
    else p
  }

  /** One message of the batch loop: process_message, then the
      processed_count bump taken when the result is truthy. */
  function Observe(s: State, d: Delivery, zone: LocalTime.Zone): (r: Processed)
    ensures r.enriched.None? <==> Rejected(d.value, zone)
    ensures r.enriched.None? ==> r.state == s
    ensures r.enriched.Some? ==> r.state.processedCount == s.processedCount + 1
    ensures r.state.lastProcessedTime == s.lastProcessedTime
    ensures Consistent(s) ==> Consistent(r.state)
  {
    Tally(s, Judge(d, zone))
  }

  /** The record a processed message contributes to the processed-logins topic. */
  function Sent(p: Processed): seq<Record> {
    if p.enriched.Some? && Truthy(p.enriched.value) then [p.enriched.value] else []
  }

  /** The loop over a run of verdicts: a left fold of Tally. */
  function Fold(s: State, vs: seq<Verdict>): (r: BatchResult)
    ensures r.state.processedCount == s.processedCount + |r.sent|
    ensures r.state.lastProcessedTime == s.lastProcessedTime
    ensures |r.sent| <= |vs|
    ensures Consistent(s) && (forall i :: 0 <= i < |vs| ==> Sound(vs[i])) ==> Consistent(r.state)
    decreases |vs|
  {
    if |vs| == 0 then BatchResult(s, [])
    else
      var o := Tally(s, vs[0]);
      var rest := Fold(o.state, vs[1..]);
      BatchResult(rest.state, Sent(o) + rest.sent)
  }

  /** The verdicts on a run of messages, in order. */
  function Verdicts(ds: seq<Delivery>, zone: LocalTime.Zone): (vs: seq<Verdict>)
    ensures |vs| == |ds|
    ensures forall i :: 0 <= i < |vs| ==> Sound(vs[i])
    decreases |ds|
  {
    if |ds| == 0 then [] else [Judge(ds[0], zone)] + Verdicts(ds[1..], zone)
  }

  /** The inner loop over one poll's messages: a left fold of Observe. The
      records sent keep the order of the messages they came from. */
  function Batch(s: State, ds: seq<Delivery>, zone: LocalTime.Zone): (r: BatchResult)
    ensures r.state.processedCount == s.processedCount + |r.sent|
    ensures r.state.lastProcessedTime == s.lastProcessedTime
    ensures |r.sent| <= |ds|
    ensures Consistent(s) ==> Consistent(r.state)
  {
    Fold(s, Verdicts(ds, zone))
  }

  /** The messages of a poll in the order the loops visit them: partition
      by partition, each partition's messages in offset order. */
  function Flatten(ps: seq<seq<Delivery>>): seq<Delivery> {
    if |ps| == 0 then [] else Flatten(ps[..|ps| - 1]) + ps[|ps| - 1]
  }

  /** The timed block of the loop. The guard reads the clock once (`probe`)
      and current_time reads it again (`now`). The snapshot's current_time
      is last_processed_time read before the reset, i.e. the window start. */
  function Flush(s: State, probe: real, now: real): (r: FlushResult)
    ensures r.snapshot.Some? <==> probe - s.lastProcessedTime >= FlushInterval
    ensures r.snapshot.None? ==> r.state == s
    ensures r.snapshot.Some? ==> r.state == EmptyWindow(now)
    ensures r.snapshot.Some? ==>
      && r.snapshot.value.locationStats == s.locationStats
      && r.snapshot.value.deviceStats == s.deviceStats
      && r.snapshot.value.currentTime == s.lastProcessedTime
      && r.snapshot.value.timeWindow == now - s.lastProcessedTime
    ensures r.snapshot.Some? && r.snapshot.value.timeWindow > 0.0 ==>
      r.snapshot.value.batchSize * r.snapshot.value.timeWindow == s.processedCount as real
    ensures r.snapshot.Some? && r.snapshot.value.timeWindow <= 0.0 ==> r.snapshot.value.batchSize == 0.0
  {
    if probe - s.lastProcessedTime >= FlushInterval then
      var elapsed := now - s.lastProcessedTime;
      var rate := if elapsed > 0.0 then s.processedCount as real / elapsed else 0.0;
      FlushResult(EmptyWindow(now), Some(AggregateStatistics(s, elapsed, rate)))
    else FlushResult(s, None)
  }

  /** aggregate_statistics: the window's location and device counts with the
      timing figures. In a consistent state each carries every processed
      message once. */
  function AggregateStatistics(s: State, elapsed: real, rate: real): (snap: Snapshot)
    ensures Consistent(s) ==> |snap.locationStats| == s.processedCount && |snap.deviceStats| == s.processedCount
    ensures snap.timeWindow == elapsed && snap.batchSize == rate
  {
    Snapshot(s.lastProcessedTime, elapsed, rate, s.locationStats, s.deviceStats)
  }

  /** One iteration of the main loop: the poll's messages, then the timed
      flush. */
  function Step(s: State, ps: seq<seq<Delivery>>, zone: LocalTime.Zone, probe: real, now: real): (r: StepResult)
    ensures Consistent(s) ==> Consistent(r.state)
    ensures r.snapshot.Some? ==> r.state == EmptyWindow(now)
    ensures r.snapshot.None? ==>
      r.state.processedCount == s.processedCount + |r.sent| && r.state.lastProcessedTime == s.lastProcessedTime
    ensures Consistent(s) && r.snapshot.Some? ==>
      |r.snapshot.value.locationStats| == s.processedCount + |r.sent|
    ensures r.sent == Outputs(Flatten(ps), zone)
    ensures r.snapshot.Some? <==> probe - s.lastProcessedTime >= FlushInterval
    ensures r.snapshot.Some? ==>
      && r.snapshot.value.currentTime == s.lastProcessedTime
      && r.snapshot.value.timeWindow == now - s.lastProcessedTime
  {
    BatchSendsOutputs(s, Flatten(ps), zone);
    var b := Batch(s, Flatten(ps), zone);
    var f := Flush(b.state, probe, now);
    StepResult(f.state, b.sent, f.snapshot)
  }

  /** One message of the batch loop over process_message as written: a
      message rejected at its second or third counter keeps the earlier
      bumps but is not added to processed_count. */
  function ObserveAsWritten(s: State, d: Delivery, zone: LocalTime.Zone): (r: Processed)
    ensures r.enriched.None? <==> Rejected(d.value, zone)
    ensures EventTime(d.value, zone).None? ==> r == Processed(s, None)
    ensures r.enriched.Some? ==> r == Observe(s, d, zone)
    ensures r.enriched.None? ==> r.state.processedCount == s.processedCount
    ensures r.state.lastProcessedTime == s.lastProcessedTime
  {
    var p := ProcessMessageAsWritten(s, d, zone);
    if p.enriched.Some? && Truthy(p.enriched.value) then
      Processed(p.state.(processedCount := p.state.processedCount + 1), p.enriched)
    else p
  }

  /** The loop body over either version of process_message behaves the
      same whenever the three counted fields are absent or hashable. */
  lemma ObserveAsWrittenAgreesWhenHashable(s: State, d: Delivery, zone: LocalTime.Zone)
    requires d.value.Object? ==>
      && (DeviceField in d.value.fields ==> Hashable(d.value.fields[DeviceField]))
      && (VersionField in d.value.fields ==> Hashable(d.value.fields[VersionField]))
      && (LocaleField in d.value.fields ==> Hashable(d.value.fields[LocaleField]))
    ensures ObserveAsWritten(s, d, zone) == Observe(s, d, zone)
  {
    AsWrittenAgreesWhenHashable(s, d, zone);
  }

  /** The record process_message returns for a message, stated from the
      message and the zone alone, never from the counters. */
  function EnrichedOf(d: Delivery, zone: LocalTime.Zone): (r: Option<Record>)
    ensures r.None? <==> Rejected(d.value, zone)
  {
    match Judge(d, zone)
    case Drop => None
    case Accept(_, _, _, record) => Some(record)
  }

  /** What the processed-logins topic receives for a run of messages,
      stated without any state: the enriched accepted messages, in order. */
  function Outputs(ds: seq<Delivery>, zone: LocalTime.Zone): seq<Record> {
    if |ds| == 0 then []
    else
      (match EnrichedOf(ds[0], zone) case None => [] case Some(r) => [r])
        + Outputs(ds[1..], zone)
  }

  lemma ObserveRecordIsEnrichedOf(s: State, d: Delivery, zone: LocalTime.Zone)
    ensures Observe(s, d, zone).enriched == EnrichedOf(d, zone)
    ensures Sent(Observe(s, d, zone)) == (match EnrichedOf(d, zone) case None => [] case Some(r) => [r])
  {
  }

  /** A successful observe counts the message once in every counter, at
      the message's field value, or at 'unknown' when the field is absent,
      and bumps processed_count: all other counts keep their values. */
  lemma ObserveCountsOnce(s: State, d: Delivery, zone: LocalTime.Zone)
    requires !Rejected(d.value, zone)
    ensures var r := Observe(s, d, zone).state;
      && var f := d.value.fields;
      && BumpedOnce(s.deviceStats, r.deviceStats,
           if DeviceField in f then KeyOf(f[DeviceField]).value else StrKey(Unknown))
      && BumpedOnce(s.versionStats, r.versionStats,
           if VersionField in f then KeyOf(f[VersionField]).value else StrKey(Unknown))
      && BumpedOnce(s.locationStats, r.locationStats,
           if LocaleField in f then KeyOf(f[LocaleField]).value else StrKey(Unknown))
      && r.processedCount == s.processedCount + 1
  {
  }

  /** The enriched record is the input object with exactly three keys set:
      processed_timestamp is the wall-clock rendering, hour_of_day is the
      local hour of the event timestamp, and the hour written inside
      readable_timestamp is that same hour. Every other key keeps its value. */
  lemma ObserveEnriches(s: State, d: Delivery, zone: LocalTime.Zone)
    requires !Rejected(d.value, zone)
    ensures var f := d.value.fields;
      && var ts := PyInt.IntOf(f[TimestampField]).value;
      && var r := Observe(s, d, zone).enriched.value;
      && r.Keys == f.Keys + {ProcessedKey, ReadableKey, HourKey}
      && (forall k :: k in f && k != ProcessedKey && k != ReadableKey && k != HourKey ==> r[k] == f[k])
      && r[ProcessedKey] == Str(d.processedAt)
      && r[HourKey] == Int(LocalTime.HourOf(zone, ts))
      && 0 <= LocalTime.HourOf(zone, ts) < 24
      && r[ReadableKey].Str?
      && LocalTime.HourField(r[ReadableKey].s) == Some(LocalTime.HourOf(zone, ts))
      && LocalTime.ReadIso(r[ReadableKey].s) == LocalTime.FromTimestamp(zone, ts)
  {
  }

  /** Missing fields are not filled in: a message without a locale (or
      device type, or app version) yields a record without one, while the
      counter counts it under 'unknown'. */
  lemma MissingFieldsStayMissing(s: State, d: Delivery, zone: LocalTime.Zone, name: string)
    requires !Rejected(d.value, zone)
    requires name == DeviceField || name == VersionField || name == LocaleField
    requires name !in d.value.fields
    ensures name !in Observe(s, d, zone).enriched.value
    ensures CounterKey(d.value.fields, name) == Some(StrKey(Unknown))
  {
    var v := Judge(d, zone);
    assert Observe(s, d, zone).enriched == Some(v.record);
    FieldNamesDistinct();
    EnrichOmits(d.value.fields, EventTime(d.value, zone).value, d.processedAt, name);
  }

  /** Both versions of process_message behave the same whenever the three
      counted fields are absent or hashable, as they are for every message
      whose fields are strings. */
  lemma AsWrittenAgreesWhenHashable(s: State, d: Delivery, zone: LocalTime.Zone)
    requires d.value.Object? ==>
      && (DeviceField in d.value.fields ==> Hashable(d.value.fields[DeviceField]))
      && (VersionField in d.value.fields ==> Hashable(d.value.fields[VersionField]))
      && (LocaleField in d.value.fields ==> Hashable(d.value.fields[LocaleField]))
    ensures ProcessMessageAsWritten(s, d, zone) == ProcessMessage(s, d, zone)
  {
  }

  /** As written, a message with a valid timestamp and a list for its
      app_version is rejected after device_stats was bumped: processed_count
      no longer equals the device total. The atomic version leaves the
      state alone. */
  lemma PartialUpdateWitness()
    ensures var s := EmptyWindow(0.0);
      && var d := Delivery(Object(map[TimestampField := Int(0), VersionField := Array([])]), "");
      && var r := ProcessMessageAsWritten(s, d, LocalTime.Zone(0));
      && r.enriched.None?
      && r.state.deviceStats == multiset{StrKey(Unknown)}
      && r.state.processedCount == 0
      && !Consistent(r.state)
      && !Consistent(ObserveAsWritten(s, d, LocalTime.Zone(0)).state)
      && ProcessMessage(s, d, LocalTime.Zone(0)) == Processed(s, None)
      && Observe(s, d, LocalTime.Zone(0)) == Processed(s, None)
  {
    var d := Delivery(Object(map[TimestampField := Int(0), VersionField := Array([])]), "");
    assert LocalTime.Representable(LocalTime.Zone(0), 0);
    assert EventTime(d.value, LocalTime.Zone(0)).Some?;
  }

  /** Folding over two runs in turn is folding over their concatenation;
      the records sent by the first run come first. */
  lemma {:induction false} FoldAppend(s: State, a: seq<Verdict>, b: seq<Verdict>)
    ensures var r1 := Fold(s, a);
      && var r2 := Fold(r1.state, b);
      && Fold(s, a + b) == BatchResult(r2.state, r1.sent + r2.sent)
    decreases |a|
  {
    if |a| == 0 {
      assert a + b == b;
    } else {
      var o := Tally(s, a[0]);
      assert (a + b)[0] == a[0];
      assert (a + b)[1..] == a[1..] + b;
      FoldAppend(o.state, a[1..], b);
      var r1 := Fold(o.state, a[1..]);
      var r2 := Fold(r1.state, b);
      assert Sent(o) + (r1.sent + r2.sent) == (Sent(o) + r1.sent) + r2.sent;
    }
  }

  lemma {:induction false} VerdictsAppend(a: seq<Delivery>, b: seq<Delivery>, zone: LocalTime.Zone)
    ensures Verdicts(a + b, zone) == Verdicts(a, zone) + Verdicts(b, zone)
    decreases |a|
  {
    if |a| == 0 {
      assert a + b == b;
    } else {
      assert (a + b)[0] == a[0];
      assert (a + b)[1..] == a[1..] + b;
      VerdictsAppend(a[1..], b, zone);
    }
  }

  /** Processing two runs in turn is processing their concatenation; the
      records sent by the first run come first. */
  lemma BatchAppend(s: State, a: seq<Delivery>, b: seq<Delivery>, zone: LocalTime.Zone)
    ensures var r1 := Batch(s, a, zone);
      && var r2 := Batch(r1.state, b, zone);
      && Batch(s, a + b, zone) == BatchResult(r2.state, r1.sent + r2.sent)
  {
    VerdictsAppend(a, b, zone);
    FoldAppend(s, Verdicts(a, zone), Verdicts(b, zone));
  }

  lemma BatchSnoc(s: State, ds: seq<Delivery>, d: Delivery, zone: LocalTime.Zone)
    ensures var r := Batch(s, ds, zone);
      && var o := Observe(r.state, d, zone);
      && Batch(s, ds + [d], zone) == BatchResult(o.state, r.sent + Sent(o))
  {
    BatchAppend(s, ds, [d], zone);
    var r := Batch(s, ds, zone);
    var vs := Verdicts([d], zone);
    assert [d][1..] == [];
    assert vs == [Judge(d, zone)];
    assert vs[1..] == [];
    assert Fold(r.state, vs) == BatchResult(Tally(r.state, vs[0]).state, Sent(Tally(r.state, vs[0])));
  }

  /** The records sent for a run of verdicts, in order. */
  function Records(vs: seq<Verdict>): seq<Record> {
    if |vs| == 0 then []
    else Emitted(vs[0]) + Records(vs[1..])
  }

  /** The record one verdict sends: the accepted, truthy record. */
  function Emitted(v: Verdict): seq<Record> {
    if v.Accept? && Truthy(v.record) then [v.record] else []
  }

  lemma {:induction false} FoldSendsRecords(s: State, vs: seq<Verdict>)
    ensures Fold(s, vs).sent == Records(vs)
    decreases |vs|
  {
    if |vs| > 0 {
      FoldSendsRecords(Tally(s, vs[0]).state, vs[1..]);
    }
  }

  lemma EmittedIsEnrichedOf(d: Delivery, zone: LocalTime.Zone)
    ensures Emitted(Judge(d, zone)) == (match EnrichedOf(d, zone) case None => [] case Some(r) => [r])
  {
  }

  lemma {:induction false} RecordsOfVerdicts(ds: seq<Delivery>, zone: LocalTime.Zone)
    ensures Records(Verdicts(ds, zone)) == Outputs(ds, zone)
    decreases |ds|
  {
    if |ds| > 0 {
      var vs := Verdicts(ds, zone);
      assert vs[0] == Judge(ds[0], zone) && vs[1..] == Verdicts(ds[1..], zone);
      EmittedIsEnrichedOf(ds[0], zone);
      assert Records(vs) == Emitted(vs[0]) + Records(vs[1..]);
      RecordsOfVerdicts(ds[1..], zone);
    }
  }

  /** The records a batch sends are the enriched accepted messages in
      their input order, whatever the counters held before; the count grows
      by exactly that many. */
  lemma BatchSendsOutputs(s: State, ds: seq<Delivery>, zone: LocalTime.Zone)
    ensures Batch(s, ds, zone).sent == Outputs(ds, zone)
    ensures Batch(s, ds, zone).state.processedCount == s.processedCount + |Outputs(ds, zone)|
  {
    FoldSendsRecords(s, Verdicts(ds, zone));
    RecordsOfVerdicts(ds, zone);
  }

  lemma {:induction false} FoldOfDropsIsNoOp(s: State, vs: seq<Verdict>)
    requires forall i :: 0 <= i < |vs| ==> vs[i].Drop?
    ensures Fold(s, vs) == BatchResult(s, [])
    decreases |vs|
  {
    if |vs| > 0 {
      assert vs[0].Drop?;
      FoldOfDropsIsNoOp(s, vs[1..]);
    }
  }

  lemma {:induction false} VerdictsOfRejected(ds: seq<Delivery>, zone: LocalTime.Zone)
    requires forall i :: 0 <= i < |ds| ==> Rejected(ds[i].value, zone)
    ensures forall i :: 0 <= i < |ds| ==> Verdicts(ds, zone)[i].Drop?
    decreases |ds|
  {
    if |ds| > 0 {
      assert Rejected(ds[0].value, zone);
      VerdictsOfRejected(ds[1..], zone);
      assert forall i :: 1 <= i < |ds| ==> ds[1..][i - 1] == ds[i];
    }
  }

  /** A batch of rejected messages changes nothing and sends nothing. */
  lemma BatchOfRejectedIsNoOp(s: State, ds: seq<Delivery>, zone: LocalTime.Zone)
    requires forall i :: 0 <= i < |ds| ==> Rejected(ds[i].value, zone)
    ensures Batch(s, ds, zone) == BatchResult(s, [])
  {
    VerdictsOfRejected(ds, zone);
    FoldOfDropsIsNoOp(s, Verdicts(ds, zone));
  }

  /** Lines 116-120 for one message: process it, and when the result is
      truthy send it and count it. */
  method HandleMessage(s: State, sent: seq<Record>, d: Delivery, zone: LocalTime.Zone)
    returns (s': State, sent': seq<Record>)
    ensures var o := Observe(s, d, zone);
      s' == o.state && sent' == sent + Sent(o)
  {
    var p := ProcessMessage(s, d, zone);
    s', sent' := p.state, sent;
    if p.enriched.Some? && Truthy(p.enriched.value) {
      sent' := sent + [p.enriched.value];
      s' := s'.(processedCount := s'.processedCount + 1);
    }
  }

  lemma ExtendPrefix<T>(a: seq<T>, b: seq<T>, j: nat)
    requires j < |b|
    ensures a + b[..j + 1] == (a + b[..j]) + [b[j]]
  {
    assert b[..j + 1] == b[..j] + [b[j]];
  }

  /** The inner loop over one partition's messages, continuing a fold
      that has already consumed `done`. */
  method RunPartition(ghost s0: State, ghost done: seq<Delivery>, s: State, sent: seq<Record>,
                      part: seq<Delivery>, zone: LocalTime.Zone)
    returns (s': State, sent': seq<Record>)
    requires BatchResult(s, sent) == Batch(s0, done, zone)
    ensures BatchResult(s', sent') == Batch(s0, done + part, zone)
  {
    s', sent' := s, sent;
    var j := 0;
    assert done + part[..0] == done;
    while j < |part|
      invariant 0 <= j <= |part|
      invariant BatchResult(s', sent') == Batch(s0, done + part[..j], zone)
    {
      BatchSnoc(s0, done + part[..j], part[j], zone);
      ExtendPrefix(done, part, j);
      s', sent' := HandleMessage(s', sent', part[j], zone);
      j := j + 1;
    }
    assert part[..|part|] == part;
  }

  /** The nested loops over one poll's partitions and messages. */
  method RunBatch(s0: State, ps: seq<seq<Delivery>>, zone: LocalTime.Zone) returns (s: State, sent: seq<Record>)
    ensures BatchResult(s, sent) == Batch(s0, Flatten(ps), zone)
  {
    s, sent := s0, [];
    var i := 0;
    while i < |ps|
      invariant 0 <= i <= |ps|
      invariant BatchResult(s, sent) == Batch(s0, Flatten(ps[..i]), zone)
    {
      assert ps[..i + 1][..i] == ps[..i];
      assert Flatten(ps[..i + 1]) == Flatten(ps[..i]) + ps[i];
      s, sent := RunPartition(s0, Flatten(ps[..i]), s, sent, ps[i], zone);
      i := i + 1;
    }
    assert ps[..|ps|] == ps;
  }

  /** With a clock that does not step back between the two readings, a
      flush sees at least FlushInterval seconds elapsed, so the rate is
      processed_count / elapsed and the `else 0` branch is never taken. */
  lemma FlushRate(s: State, probe: real, now: real)
    requires probe <= now
    ensures var r := Flush(s, probe, now);
      r.snapshot.Some? ==>
        && r.snapshot.value.timeWindow >= FlushInterval
        && r.snapshot.value.batchSize * r.snapshot.value.timeWindow == s.processedCount as real
  {
  }

  /** The guard does not protect the division on its own: if the wall
      clock steps back between the two readings, elapsed can be negative
      and the rate falls to 0 despite processed messages. */
  lemma ZeroRateWhenClockStepsBack(s: State, probe: real, now: real)
    requires probe - s.lastProcessedTime >= FlushInterval
    requires now <= s.lastProcessedTime
    ensures var r := Flush(s, probe, now);
      && r.snapshot.Some?
      && r.snapshot.value.timeWindow <= 0.0
      && r.snapshot.value.batchSize == 0.0
  {
  }

  /** A window with no accepted message is still flushed, with empty
      location and device dicts. */
  lemma EmptyWindowIsFlushed(s: State, probe: real, now: real)
    requires Consistent(s) && s.processedCount == 0
    requires probe - s.lastProcessedTime >= FlushInterval
    ensures var r := Flush(s, probe, now);
      && r.snapshot.Some?
      && AsDict(r.snapshot.value.locationStats) == map[]
      && AsDict(r.snapshot.value.deviceStats) == map[]
  {
  }

  /** With a clock that never steps back, a step never moves the window
      start backwards, and a flushing step moves it forward by at least
      FlushInterval. */
  lemma WindowStartAdvances(s: State, ps: seq<seq<Delivery>>, zone: LocalTime.Zone, probe: real, now: real)
    requires probe <= now
    ensures var r := Step(s, ps, zone, probe, now);
      && r.state.lastProcessedTime >= s.lastProcessedTime
      && (r.snapshot.Some? ==> r.state.lastProcessedTime >= s.lastProcessedTime + FlushInterval)
  {
  }
}

=== FILE: pyint.dfy ===
/** Python's int(x) applied to a decoded JSON value: the conversion the
    consumer applies to message['timestamp'] before building a datetime. */
module PyInt {
  import opened Maybe
  import opened Json
  import Decimal

  /** The most decimal digits int() accepts from a string
      (sys.int_info.default_max_str_digits, Python 3.11 and later). */
  const MaxStrDigits := 4300

  /** Whitespace int() strips around a literal: the ASCII and Latin-1
      characters Python's str.isspace accepts. */
  predicate IsSpace(c: char) {
    var n := c as int;
    n == 32 || 9 <= n <= 13 || 28 <= n <= 31 || n == 0x85 || n == 0xA0
  }

  predicate AllSpace(s: string) {
    forall i :: 0 <= i < |s| ==> IsSpace(s[i])
  }

  /** `s` without its leading whitespace. */
  function StripLeading(s: string): (r: string)
    ensures |r| <= |s| && r == s[|s| - |r|..]
    ensures AllSpace(s[..|s| - |r|])
    ensures r == [] || !IsSpace(r[0])
  {
    if |s| > 0 && IsSpace(s[0]) then
      var r := StripLeading(s[1..]);
      var k := |s| - |r|;
      assert forall i :: 1 <= i < k ==> s[..k][i] == s[1..][..k - 1][i - 1];
      r
    else s
  }

  /** `s` without its trailing whitespace. */
  function StripTrailing(s: string): (r: string)
    ensures |r| <= |s| && r == s[..|r|]
    ensures AllSpace(s[|r|..])
    ensures r == [] || !IsSpace(r[|r| - 1])
  {
    if |s| > 0 && IsSpace(s[|s| - 1]) then
      var r := StripTrailing(s[..|s| - 1]);
      assert s[|r|..] == s[..|s| - 1][|r|..] + [s[|s| - 1]];
      r
    else s
  }

  function Strip(s: string): string {
    StripTrailing(StripLeading(s))
  }

  /** The digits of an integer literal: decimal digits, where a single
      underscore may stand between two digits ("1_000"). */
  predicate WellFormedBody(b: string) {
    && |b| > 0
    && Decimal.IsDigit(b[0])
    && Decimal.IsDigit(b[|b| - 1])
    && forall i :: 0 <= i < |b| ==> DigitOrJoiner(b, i)
  }

  /** Position `i` holds a digit, or an underscore that is neither first
      nor last and is followed by a digit. */
  predicate DigitOrJoiner(b: string, i: nat)
    requires i < |b|
  {
    Decimal.IsDigit(b[i]) || (b[i] == '_' && 0 < i < |b| - 1 && Decimal.IsDigit(b[i + 1]))
  }

  /** The digits of `b`, underscores removed. */
  function DropUnderscores(b: string): (d: string)
    ensures |d| <= |b|
    ensures (forall i :: 0 <= i < |b| ==> Decimal.IsDigit(b[i]) || b[i] == '_') ==> Decimal.AllDigits(d)
    ensures Decimal.AllDigits(b) ==> d == b
  {
    if |b| == 0 then []
    else if b[0] == '_' then DropUnderscores(b[1..])
    else [b[0]] + DropUnderscores(b[1..])
  }

  function ParseBody(b: string): Option<nat> {
    if WellFormedBody(b) then
      assert forall i :: 0 <= i < |b| ==> Decimal.IsDigit(b[i]) || b[i] == '_' by {
        forall i | 0 <= i < |b| ensures Decimal.IsDigit(b[i]) || b[i] == '_' {
          assert DigitOrJoiner(b, i);
        }
      }
      var d := DropUnderscores(b);
      if |d| <= MaxStrDigits then Some(Decimal.Value(d)) else None
    else None
  }

  function Negate(r: Option<nat>): Option<int> {
    match r
    case None => None
    case Some(n) => Some(-(n as int))
  }

  function Widen(r: Option<nat>): Option<int> {
    match r
    case None => None
    case Some(n) => Some(n)
  }

  /** int(s) for a str `s`: surrounding whitespace, then an optional sign,
      then the digits. None where Python raises ValueError. */
  function ParseInt(s: string): Option<int> {
    var t := Strip(s);
    if |t| > 0 && t[0] == '-' then Negate(ParseBody(t[1..]))
    else if |t| > 0 && t[0] == '+' then Widen(ParseBody(t[1..]))
    else Widen(ParseBody(t))
  }

  /** str(n): the decimal rendering of an integer. */
  function Show(n: int): string {
    if n < 0 then "-" + Decimal.Render(-n) else Decimal.Render(n)
  }

  /** int(x) for a float `x`: the integer part, truncating toward zero. */
  function Truncate(x: real): (t: int)
    ensures x >= 0.0 ==> 0 <= t && t as real <= x < t as real + 1.0
    ensures x < 0.0 ==> t <= 0 && t as real - 1.0 < x <= t as real
  {
    if x >= 0.0 then x.Floor else -((-x).Floor)
  }

  /** int(v) for a decoded JSON value; None where Python raises TypeError
      (None, list, dict) or ValueError (a str that is not an integer
      literal). */
  function IntOf(v: Value): (r: Option<int>)
    ensures v.Null? || v.Array? || v.Object? ==> r.None?
    ensures v.Int? ==> r == Some(v.i)
    ensures v.Bool? ==> r == Some(if v.b then 1 else 0)
    ensures v.Float? && v.r >= 0.0 ==> r.Some? && 0 <= r.value && r.value as real <= v.r < r.value as real + 1.0
    ensures v.Float? && v.r < 0.0 ==> r.Some? && r.value <= 0 && r.value as real - 1.0 < v.r <= r.value as real
    ensures v.Str? ==> r == ParseInt(v.s)
  {
    match v
    case Null => None
    case Bool(b) => Some(if b then 1 else 0)
    case Int(i) => Some(i)
    case Float(x) => Some(Truncate(x))
    case Str(s) => ParseInt(s)
    case Array(_) => None
    case Object(_) => None
  }

  lemma NoSpaceNoStrip(s: string)
    requires s == [] || (!IsSpace(s[0]) && !IsSpace(s[|s| - 1]))
    ensures Strip(s) == s
  {
  }

  /** int(str(n)) == n for every integer whose rendering is within the
      digit limit. */
  lemma ParseShowRoundTrip(n: int)
    requires |Decimal.Render(if n < 0 then -n else n)| <= MaxStrDigits
    ensures ParseInt(Show(n)) == Some(n)
  {
    var m := if n < 0 then -n else n;
    var d := Decimal.Render(m);
    Decimal.ValueOfRender(m);
    var s := Show(n);
    assert !IsSpace(d[0]) && !IsSpace(d[|d| - 1]);
    assert s[|s| - 1] == d[|d| - 1];
    assert !IsSpace(s[0]) && !IsSpace(s[|s| - 1]);
    NoSpaceNoStrip(s);
    forall i | 0 <= i < |d| ensures DigitOrJoiner(d, i) { }
    assert WellFormedBody(d);
    assert DropUnderscores(d) == d;
    assert ParseBody(d) == Some(m);
    if n < 0 {
      assert s[1..] == d;
      assert s[0] == '-';
      assert ParseInt(s) == Negate(ParseBody(d));
    } else {
      assert s == d;
      assert d[0] != '-' && d[0] != '+';
      assert ParseInt(s) == Widen(ParseBody(d));
    }
  }

  /** A plain digit string is read as its value when it has at most
      MaxStrDigits digits and rejected when it has more. */
  lemma DigitLimit(d: string)
    requires |d| > 0 && Decimal.AllDigits(d)
    ensures |d| <= MaxStrDigits ==> ParseInt(d) == Some(Decimal.Value(d))
    ensures |d| > MaxStrDigits ==> ParseInt(d) == None
  {
    assert !IsSpace(d[0]) && !IsSpace(d[|d| - 1]);
    NoSpaceNoStrip(d);
    forall i | 0 <= i < |d| ensures DigitOrJoiner(d, i) { }
    assert WellFormedBody(d);
    assert DropUnderscores(d) == d;
    assert d[0] != '-' && d[0] != '+';
    assert ParseInt(d) == Widen(ParseBody(d));
  }

  lemma {:induction false} StripLeadingSpacePrefix(pre: string, s: string)
    requires AllSpace(pre)
    ensures StripLeading(pre + s) == StripLeading(s)
    decreases |pre|
  {
    if |pre| > 0 {
      assert (pre + s)[1..] == pre[1..] + s;
      StripLeadingSpacePrefix(pre[1..], s);
    } else {
      assert pre + s == s;
    }
  }

  lemma {:induction false} StripTrailingSpaceSuffix(s: string, post: string)
    requires AllSpace(post)
    ensures StripTrailing(s + post) == StripTrailing(s)
    decreases |post|
  {
    if |post| > 0 {
      var t := s + post;
      assert t[..|t| - 1] == s + post[..|post| - 1];
      StripTrailingSpaceSuffix(s, post[..|post| - 1]);
    } else {
      assert s + post == s;
    }
  }

  lemma {:induction false} StripLeadingThenSuffix(s: string, post: string)
    requires AllSpace(post)
    ensures StripLeading(s) != [] ==> StripLeading(s + post) == StripLeading(s) + post
    ensures StripLeading(s) == [] ==> StripLeading(s + post) == []
    decreases |s|
  {
    if |s| > 0 && IsSpace(s[0]) {
      assert (s + post)[1..] == s[1..] + post;
      StripLeadingThenSuffix(s[1..], post);
    } else if |s| == 0 {
      assert s + post == post;
      assert StripLeading(post) == [] by {
        AllSpaceStripsToEmpty(post);
      }
    }
  }

  lemma {:induction false} AllSpaceStripsToEmpty(s: string)
    requires AllSpace(s)
    ensures StripLeading(s) == []
    decreases |s|
  {
    if |s| > 0 {
      AllSpaceStripsToEmpty(s[1..]);
    }
  }

  /** Whitespace around a literal does not change what int() reads. */
  lemma ParseIgnoresSurroundingSpace(pre: string, s: string, post: string)
    requires AllSpace(pre) && AllSpace(post)
    ensures ParseInt(pre + s + post) == ParseInt(s)
  {
    StripIgnoresSurroundingSpace(pre, s, post);
    ParseDependsOnlyOnStrip(pre + s + post, s);
  }

  lemma StripIgnoresSurroundingSpace(pre: string, s: string, post: string)
    requires AllSpace(pre) && AllSpace(post)
    ensures Strip(pre + s + post) == Strip(s)
  {
    var t := pre + s + post;
    assert t == pre + (s + post);
    StripLeadingSpacePrefix(pre, s + post);
    assert StripLeading(t) == StripLeading(s + post);
    StripLeadingThenSuffix(s, post);
    var l := StripLeading(s);
    if l != [] {
      assert StripLeading(t) == l + post;
      StripTrailingSpaceSuffix(l, post);
      assert Strip(t) == StripTrailing(l);
    } else {
      assert StripLeading(t) == [];
      assert Strip(t) == StripTrailing([]);
    }
  }

  lemma ParseDependsOnlyOnStrip(a: string, b: string)
    requires Strip(a) == Strip(b)
    ensures ParseInt(a) == ParseInt(b)
  {
  }
}
